=== FILE: README.md ===
# Medplum task demo: sidebar links and upload label, in Dafny

This project models the list and string logic of the Medplum task demo
application. The logic lives inside React effects. Here it is lifted out
into pure functions and small methods over immutable values.

- **"My Tasks" pass** (`getMyTasksLink`). With a profile, it builds one link
  to the user's open tasks. It appends that link to the current list unless
  a link labelled "My Tasks" is already there.
- **Role pass** (`getLinks`). It walks the user's PractitionerRoles. For
  each role it picks a coding, builds the task filters, resolves a display
  and appends a `"<display> Tasks"` link. If a label is already taken, the
  source `return`s out of the whole pass. Every link built in that run is
  then lost, and `setUserLinks` is never called.
- **Helpers.** The role fetch keeps only `PractitionerRole` results. The
  role display falls back from the specialty display to the code display
  to `getDisplayString`.
- **Upload page.** The `:dataType` route parameter with its first character
  upper-cased, and the button text `"Upload <display> Data"`.

Modules, one per concept: `Values` (possibly-undefined values and
JavaScript truthiness), `Fhir` (Coding, CodeableConcept, PractitionerRole
and Practitioner, with the optional-chain paths the code reads), `Search`
(filters, search requests, and the client-library helpers), `NavLinks`
(links, the label scan, dedup-append), `Roles` (everything derived from one
role), `Sidebar` (the two passes and their composition), `Upload`.

Conventions:
- The client-library helpers `formatSearchQuery`, `getReferenceString` and
  `getDisplayString` are fields of a `Library` value passed as a parameter.
  Nothing is assumed about what they return, so every property holds
  whatever they compute.
- A pass returns `None` when the source returns before it stores a list.
  It returns `Some(list)` for the list handed to `setUserLinks`.
- A present but empty `specialty`, `code` or `coding` array makes the
  source throw a TypeError at some optional-chain paths. These cases are
  preconditions (`CodingDefined`, `DisplayDefined`, `CrashFree`). They
  follow JavaScript's evaluation order exactly. For example, `code` is only
  read when the specialty side gives nothing, and roles after an early
  return are never read.
- A role resource keeps, besides the fields the code reads, its id and an
  opaque `rest` standing for everything else in it. So two different
  resources stay two different values, and `getDisplayString`, which sees
  the whole resource, may give them different displays.
- Two roles with the same display give no role link at all: the `return`
  at App.tsx:119 leaves `getLinks` before `setUserLinks` at App.tsx:127, so
  the links built earlier in the same pass are dropped too (see Findings).
- A display or code that is present but empty falls through like an absent
  one, because the code tests truthiness.
- The task filters are an ordered list: `owner:missing` first, then
  `performer` when there is one.

## Model

| member | source | states |
|---|---|---|
| Fhir.FirstCoding | examples/medplum-task-demo/src/App.tsx:98 | `x?.[0].coding?.[0]` is undefined when `x` or its first concept's codings are absent or empty, and is the first coding otherwise |
| Fhir.FirstDisplay | examples/medplum-task-demo/src/App.tsx:181 | `x?.[0].coding?.[0].display` is undefined when `x` or the first concept's codings are absent, and is the first coding's display otherwise |
| Fhir.DisplayOfFirstCoding | examples/medplum-task-demo/src/App.tsx:181-184 | wherever the display path is defined, the coding path is too, and the display read is that of the coding it selects |
| NavLinks.ScanForLabel | examples/medplum-task-demo/src/App.tsx:73-77 | the label scan reports a hit exactly when some link in the list carries the label |
| NavLinks.AddIfAbsent | examples/medplum-task-demo/src/App.tsx:73-78 | after dedup-append the label is present, the old list is a prefix of the result, at most one link is added, and labels that were keys stay keys |
| NavLinks.AddIfAbsentCases | examples/medplum-task-demo/src/App.tsx:73-80 | the list is unchanged exactly when the label is taken; otherwise it grows by one with the new link last |
| NavLinks.AddIfAbsentIdempotent | examples/medplum-task-demo/src/App.tsx:73-78 | adding the same link twice gives the same list as adding it once |
| NavLinks.InitialLinksUnique | examples/medplum-task-demo/src/App.tsx:30-32 | the starting "All Tasks" list has unique labels |
| Roles.KeepPractitionerRoles | examples/medplum-task-demo/src/App.tsx:42-44 | the role filter keeps exactly the results whose resourceType is PractitionerRole; it keeps all of them only when every result is one |
| Roles.KeepDistributes | examples/medplum-task-demo/src/App.tsx:42-44 | filtering a concatenation filters each part, in order, so original order is kept |
| Roles.KeepIdempotent | examples/medplum-task-demo/src/App.tsx:42-44 | filtering already-filtered roles changes nothing |
| Roles.RoleQuery | examples/medplum-task-demo/src/App.tsx:38-40 | the role search asks for `practitioner = Practitioner/<id>`, with the profile's id after the prefix, or "undefined" when the profile has no id |
| Roles.FetchRoles | examples/medplum-task-demo/src/App.tsx:36-47 | roles are stored exactly when there is a profile; they are then exactly the fetched PractitionerRoles, in fetch order and with their multiplicity (the filter pinned down by KeepPractitionerRoles and KeepDistributes) |
| Roles.ChooseCoding | examples/medplum-task-demo/src/App.tsx:98 | the specialty's first coding is chosen whenever it exists; the code's first coding is chosen only when it does not |
| Roles.RoleFilters | examples/medplum-task-demo/src/App.tsx:100-104 | filters start with `owner:missing = true`; a second filter `performer = code` is present if and only if the chosen coding has a truthy code |
| Roles.SpecialtyCodingShadowsCode | examples/medplum-task-demo/src/App.tsx:98-104 | a specialty coding without a code gives no performer filter, even if the code coding has one |
| Roles.FirstOf | examples/medplum-task-demo/src/App.tsx:180-187 | the first-of combinator returns the first truthy candidate, or the fallback when there is none |
| Roles.RoleDisplay | examples/medplum-task-demo/src/App.tsx:179-190 | the display is the specialty display when truthy; otherwise the code display when truthy; otherwise getDisplayString of the whole resource |
| Roles.RoleDisplayIsFirstOf | examples/medplum-task-demo/src/App.tsx:179-190 | under the source's own crash-free condition, the role display equals the first truthy candidate read in the `if` chain's order, else getDisplayString(role) |
| Roles.SpecialtyDisplayWins | examples/medplum-task-demo/src/App.tsx:181-182 | any truthy specialty display is the display, whatever the code holds, and the code path is then never required |
| Roles.CodeDisplayWithoutSpecialty | examples/medplum-task-demo/src/App.tsx:183-184 | with no specialty, any truthy code display is the display |
| Roles.DisplayFallsBackToLibrary | examples/medplum-task-demo/src/App.tsx:185-187 | with neither a specialty nor a code, the display is getDisplayString(role) |
| Roles.BareRolesNeedNotShareDisplay | examples/medplum-task-demo/src/App.tsx:185-187 | two different resources without specialty or code can get different displays from getDisplayString, so their labels need not collide |
| Roles.SpecialtyCodingNamesItsRole | examples/medplum-task-demo/src/App.tsx:98-114 | when the chosen specialty coding has a truthy display, the role's label and its performer filter come from that same coding |
| Roles.DisplayAndCodingMayDiffer | examples/medplum-task-demo/src/App.tsx:98-114 | the performer can come from the specialty coding while the label comes from the code coding |
| Roles.RoleLink | examples/medplum-task-demo/src/App.tsx:106-115 | a role link has the user icon, its label is the display of the whole role resource followed by " Tasks", and its href is /Task plus the formatted Task search with the role's filters |
| Roles.RoleLinks | examples/medplum-task-demo/src/App.tsx:96-115 | one link per role, in role order, each the link of that role |
| Sidebar.UniqueAppend | examples/medplum-task-demo/src/App.tsx:117-123 | appending to a list with unique labels keeps them unique if and only if no appended label collides |
| Sidebar.GetMyTasksLink | examples/medplum-task-demo/src/App.tsx:51-81 | no update without a profile; with one, no update exactly when "My Tasks" is taken; otherwise the input plus a last link whose search has filters owner = getReferenceString(profile) then status:not = completed, and the fixed fields and sort rule |
| Sidebar.AbortMeansCollision | examples/medplum-task-demo/src/App.tsx:117-120 | if every role can be built and the pass aborts, then some generated label collides |
| Sidebar.CollisionMeansAbort | examples/medplum-task-demo/src/App.tsx:117-120 | conversely, if every role can be built and some generated label collides, the pass aborts; with AbortMeansCollision, aborting is exactly colliding |
| Sidebar.GetLinks | examples/medplum-task-demo/src/App.tsx:93-128 | without roles the list is stored unchanged; with roles, no update exactly when a label collides in a prefix the loop reaches; otherwise the stored list is the input followed by one link per role, in role order; unique labels are kept |
| Sidebar.SignIn | examples/medplum-task-demo/src/App.tsx:35-131 | after sign-in the list is "All Tasks", "My Tasks", then the role links unless the role pass aborted; labels stay unique; with no roles it is exactly "All Tasks", "My Tasks" |
| Sidebar.AddRoleLinks | examples/medplum-task-demo/src/App.tsx:117-123 | the corrected pass (skip a taken label) keeps the input as a prefix, gives every role's label a link, and keeps labels unique |
| Sidebar.AddRoleLinksWithoutCollision | examples/medplum-task-demo/src/App.tsx:96-127 | without collisions the corrected pass and the source's pass store the same list |
| Sidebar.AddAll | examples/medplum-task-demo/src/App.tsx:117-123 | dedup-appending each link in turn keeps at least the input's links and adds at most one per appended link |
| Sidebar.AddAllKeeps | examples/medplum-task-demo/src/App.tsx:117-123 | dedup-appending a sequence of links keeps the input as a prefix, leaves every appended label present and keeps labels unique |
| Sidebar.AddAllWithoutCollision | examples/medplum-task-demo/src/App.tsx:117-123 | without label collisions, dedup-appending a sequence of links appends them all in order |
| Sidebar.AddAllPresent | examples/medplum-task-demo/src/App.tsx:117-123 | once every label is present, dedup-appending changes nothing |
| Sidebar.AddRoleLinksIdempotent | examples/medplum-task-demo/src/App.tsx:117-123 | re-running the corrected pass on its own output changes nothing |
| Sidebar.DuplicateDisplayAborts | examples/medplum-task-demo/src/App.tsx:117-120 | two roles with the same display abort the source's pass, so neither gets a link |
| Sidebar.DuplicateDisplayKeepsFirst | examples/medplum-task-demo/src/App.tsx:117-123 | with a skip instead of the early return, the first of two roles with the same display keeps its link |
| Sidebar.DistinctDisplaysBothLinked | examples/medplum-task-demo/src/App.tsx:106-127 | two roles with different displays and new labels do not collide, so the source's pass stores both links |
| Sidebar.KnownFirstRoleHidesNewRole | examples/medplum-task-demo/src/App.tsx:117-120 | when the first role is already listed, the source's pass aborts and a new second role never appears; the corrected pass adds it |
| Upload.UpperAscii | examples/medplum-task-demo/src/pages/UploadDataPage.tsx:10 | upper-casing turns a lower-case ASCII letter into its capital and leaves every other character alone |
| Upload.DataTypeDisplay | examples/medplum-task-demo/src/pages/UploadDataPage.tsx:10 | an absent or empty dataType displays as ""; otherwise the display has the same length, an upper-cased first character and the rest unchanged |
| Upload.DataTypeDisplayIdempotent | examples/medplum-task-demo/src/pages/UploadDataPage.tsx:10 | capitalising a display again changes nothing |
| Upload.DataTypeDisplayOnlyRecases | examples/medplum-task-demo/src/pages/UploadDataPage.tsx:10 | only the first character may change; a dataType not starting with a lower-case letter is shown as is |
| Upload.UploadButtonText | examples/medplum-task-demo/src/pages/UploadDataPage.tsx:19 | the button text is "Upload ", then the display, then " Data" |
| Upload.ButtonTextRoundTrip | examples/medplum-task-demo/src/pages/UploadDataPage.tsx:19 | the display can be read back out of the button text |
| Upload.RouteDataType | examples/medplum-task-demo/src/App.tsx:171 | the `/upload/:dataType` route takes the parameter from an href whose remainder is one plain path segment (unreserved URL characters, not "." or ".."), and the href is "/upload/" followed by it |
| Upload.RoutedButtonText | examples/medplum-task-demo/src/pages/UploadDataPage.tsx:7-19 | the page at `/upload/<w>`, for a plain segment `w`, reads `w` as its dataType and shows "Upload ", `w` with its first character upper-cased, then " Data" |

## Left out

- React runtime: the hooks, effect scheduling, `useState` closures and stale snapshots of `userLinks` are not modelled. `Sidebar.SignIn` assumes each pass stores its list before the next pass reads it.
- Asynchronous order and the race between late fetches are not modelled. They are timing, not logic in these files.
- `medplum.searchResources` is not modelled: what it returns is a parameter (`results`). Its error path, logged with `console.error`, is left out too.
- `formatSearchQuery`, `getReferenceString` and `getDisplayString` are library code that is not part of this model. They are uninterpreted fields of `Search.Library`.
- Rendering is left out: icons (kept only as an enumeration), the `AppShell` layout and its fixed "Upload Data" menu, the route table except the `/upload/:dataType` entry (`Upload.RouteDataType`), `navigate('/')` and the unimplemented upload.
- Upload.UpperAscii: maps ASCII letters only, not full Unicode `toUpperCase`. Characters whose upper case is longer, such as "ß", are left unchanged.
- Upload.RouteDataType: covers only a parameter that is one plain path segment of unreserved URL characters, other than the dot segments "." and "..". Any other href gives None: further `/` or `\`, a query, a fragment, `%` escapes, whitespace, other characters, and dot segments, because the browser's URL normalisation and the router's splitting and percent-decoding are not modelled.
- TypeErrors from indexing a present but empty array are preconditions, not modelled exceptions.

## Findings

| source | as written | input that shows it | evidently intended | confidence | as-written member | corrected member |
|---|---|---|---|---|---|---|
| examples/medplum-task-demo/src/App.tsx:117-120 | a taken label `return`s out of `getLinks`, so no link of this run is stored | roles [A, B] where A's label is already listed (every re-run after the first) and B is new; or two roles both displayed "Cardiology" | skip only the role whose label is taken, as `continue` would, keeping the other links | medium, not executed | Sidebar.GetLinks, Sidebar.KnownFirstRoleHidesNewRole, Sidebar.DuplicateDisplayAborts | Sidebar.AddRoleLinks, Sidebar.AddRoleLinksIdempotent, Sidebar.DuplicateDisplayKeepsFirst |

`Sidebar.SignIn` composes the passes as written, since it describes what
the application does; `Sidebar.AddRoleLinks` is the skipping pass with its
properties proved, and `Sidebar.AddRoleLinksWithoutCollision` shows the two
agree whenever no label collides.

=== FILE: fhir.dfy ===
/** The parts of the FHIR resources that the sidebar code reads. */
module Fhir {
  import opened Values

  /** A Coding: an optional machine code and an optional human-readable display. */
  datatype Coding = Coding(code: Option<string>, display: Option<string>)

  /** A CodeableConcept: its optional list of codings and its optional text. */
  datatype Concept = Concept(coding: Option<seq<Coding>>, text: Option<string>)

  /** A resource returned by the PractitionerRole search: its resource type,
      its id, the optional `specialty` and `code` arrays of a PractitionerRole,
      and `rest`, which stands for every other part of the resource (its
      practitioner and organization references, the remaining fields of its
      concepts and codings, and so on). The sidebar code reads only the first
      four; `rest` keeps two different resources different values, so a
      display computed from the whole resource may tell them apart. */
  datatype Role = Role(
    resourceType: string,
    id: Option<string>,
    specialty: Option<seq<Concept>>,
    code: Option<seq<Concept>>,
    rest: string)

  /** The signed-in user's profile. It is only cast to a Practitioner, so its
      resource type is not fixed; `rest` stands for every other field. */
  datatype Practitioner = Practitioner(resourceType: string, id: Option<string>, rest: string)

  /** `concepts?.[0].coding?.[0]` evaluates without a TypeError:
      a present array has a first element. */
  predicate CodingPathDefined(concepts: Option<seq<Concept>>) {
    concepts.Some? ==> |concepts.value| > 0
  }

  /** The value of `concepts?.[0].coding?.[0]`; None stands for undefined. */
  function FirstCoding(concepts: Option<seq<Concept>>): (c: Option<Coding>)
    requires CodingPathDefined(concepts)
    ensures concepts.None? ==> c.None?
    ensures concepts.Some? ==>
      (c.Some? <==> concepts.value[0].coding.Some? && |concepts.value[0].coding.value| > 0)
    ensures c.Some? ==> c.value == concepts.value[0].coding.value[0]
  {
    if concepts.None? then None
    else match concepts.value[0].coding
      case None => None
      case Some(codings) => if |codings| == 0 then None else Some(codings[0])
  }

  /** `concepts?.[0].coding?.[0].display` evaluates without a TypeError:
      besides the above, a present coding array has a first element,
      because `.display` is read from it without `?.`. */
  predicate DisplayPathDefined(concepts: Option<seq<Concept>>) {
    concepts.Some? ==>
      |concepts.value| > 0 &&
      (concepts.value[0].coding.Some? ==> |concepts.value[0].coding.value| > 0)
  }

  /** The value of `concepts?.[0].coding?.[0].display`; None stands for undefined. */
  function FirstDisplay(concepts: Option<seq<Concept>>): (d: Option<string>)
    requires DisplayPathDefined(concepts)
    ensures concepts.None? || concepts.value[0].coding.None? ==> d.None?
    ensures concepts.Some? && concepts.value[0].coding.Some? ==> d == concepts.value[0].coding.value[0].display
  {
    if concepts.None? || concepts.value[0].coding.None? then None
    else concepts.value[0].coding.value[0].display
  }

  /** Where the display path is defined, it reads the display of the coding
      the coding path selects. */
  lemma DisplayOfFirstCoding(concepts: Option<seq<Concept>>)
    requires DisplayPathDefined(concepts)
    ensures CodingPathDefined(concepts)
    ensures FirstDisplay(concepts) ==
            (if FirstCoding(concepts).Some? then FirstCoding(concepts).value.display else None)
  {
  }
}

=== FILE: navlinks.dfy ===
/** Sidebar navigation links and the label-keyed dedup-append used on them. */
module NavLinks {

  /** The icon shown beside a link; opaque UI, kept only to say which one is used. */
  datatype Icon = GridDots | User

  datatype Link = Link(icon: Icon, text: string, href: string)

  /** The list the "My Links" menu starts with. */
  const InitialLinks: seq<Link> := [Link(GridDots, "All Tasks", "/Task")]

  /** Some link of `links` carries the label `text`. */
  predicate HasLabel(links: seq<Link>, text: string) {
    exists i :: 0 <= i < |links| && links[i].text == text
  }

  /** The invariant of a rendered list: labels are keys. */
  predicate UniqueLabels(links: seq<Link>) {
    forall i, j :: 0 <= i < j < |links| ==> links[i].text != links[j].text
  }

  /** The `for (const link of updatedLinks) if (link.label === label) ...`
      scan: reports whether some link carries `text`. */
  method ScanForLabel(links: seq<Link>, text: string) returns (found: bool)
    ensures found <==> HasLabel(links, text)
    ensures found ==> |links| > 0
  {
    for i := 0 to |links|
      invariant forall j :: 0 <= j < i ==> links[j].text != text
    {
      if links[i].text == text {
        return true;
      }
    }
    return false;
  }

  /** Appends `link` unless a link with its label is already present. */
  function AddIfAbsent(links: seq<Link>, link: Link): (r: seq<Link>)
    ensures HasLabel(r, link.text)
    ensures links <= r && |r| <= |links| + 1
    ensures UniqueLabels(links) ==> UniqueLabels(r)
  {
    if HasLabel(links, link.text) then links
    else
      var r := links + [link];
      assert r[|links|] == link;
      r
  }

  /** Either the list is returned untouched, or it grows by exactly the new
      link, placed last; which one happens depends only on the labels. */
  lemma AddIfAbsentCases(links: seq<Link>, link: Link)
    ensures HasLabel(links, link.text) <==> AddIfAbsent(links, link) == links
    ensures !HasLabel(links, link.text) <==>
            (|AddIfAbsent(links, link)| == |links| + 1 && AddIfAbsent(links, link)[|links|] == link)
  {
  }

  /** Adding the same link twice is the same as adding it once. */
  lemma AddIfAbsentIdempotent(links: seq<Link>, link: Link)
    ensures AddIfAbsent(AddIfAbsent(links, link), link) == AddIfAbsent(links, link)
  {
  }

  /** The starting list already satisfies the label invariant. */
  lemma InitialLinksUnique()
    ensures UniqueLabels(InitialLinks)
  {
  }
}

=== FILE: roles.dfy ===
/** What the sidebar derives from one PractitionerRole: the fetched-role
    filter, the chosen coding, the task filters, the display and the link. */
module Roles {
  import opened Values
  import opened Fhir
  import opened Search
  import opened NavLinks

  // ---------------------------------------------------------------------
  // Fetching the roles
  // ---------------------------------------------------------------------

  predicate IsPractitionerRole(r: Role) {
    r.resourceType == "PractitionerRole"
  }

  /** The `results.filter(r => r.resourceType === 'PractitionerRole')` step. */
  function KeepPractitionerRoles(results: seq<Role>): (r: seq<Role>)
    ensures forall x :: x in r <==> x in results && IsPractitionerRole(x)
    ensures |r| <= |results|
    ensures |r| == |results| <==> forall i :: 0 <= i < |results| ==> IsPractitionerRole(results[i])
  {
    if results == [] then []
    else if IsPractitionerRole(results[0]) then [results[0]] + KeepPractitionerRoles(results[1..])
    else KeepPractitionerRoles(results[1..])
  }

  /** Filtering a concatenation filters each part and keeps their order;
      with the single-element case this fixes the result entry by entry. */
  lemma {:induction false} KeepDistributes(a: seq<Role>, b: seq<Role>)
    ensures KeepPractitionerRoles(a + b) == KeepPractitionerRoles(a) + KeepPractitionerRoles(b)
  {
    if a == [] {
      assert a + b == b;
    } else {
      assert (a + b)[0] == a[0];
      assert (a + b)[1..] == a[1..] + b;
      KeepDistributes(a[1..], b);
      if IsPractitionerRole(a[0]) {
        assert KeepPractitionerRoles(a + b) == [a[0]] + KeepPractitionerRoles(a[1..] + b);
      } else {
        assert KeepPractitionerRoles(a + b) == KeepPractitionerRoles(a[1..] + b);
      }
    }
  }

  /** Filtering an already filtered list changes nothing. */
  lemma {:induction false} KeepIdempotent(results: seq<Role>)
    ensures KeepPractitionerRoles(KeepPractitionerRoles(results)) == KeepPractitionerRoles(results)
  {
    if results != [] {
      KeepIdempotent(results[1..]);
      if IsPractitionerRole(results[0]) {
        var rest := KeepPractitionerRoles(results[1..]);
        assert ([results[0]] + rest)[1..] == rest;
      }
    }
  }

  /** JavaScript renders an undefined id as the text "undefined" in a template. */
  function TemplateText(s: Option<string>): string {
    if s.Some? then s.value else "undefined"
  }

  /** The search parameter of the role fetch: `practitioner = Practitioner/<id>`. */
  function RoleQuery(profile: Practitioner): (q: (string, string))
    ensures q.0 == "practitioner"
    ensures |q.1| >= 13 && q.1[..13] == "Practitioner/"
    ensures profile.id.Some? ==> q.1[13..] == profile.id.value
    ensures profile.id.None? ==> q.1 == "Practitioner/undefined"
  {
    ("practitioner", "Practitioner/" + TemplateText(profile.id))
  }

  /** The roles effect: nothing is stored without a profile; otherwise the
      fetched `results` filtered to PractitionerRoles become the roles. */
  function FetchRoles(profile: Option<Practitioner>, results: seq<Role>): (roles: Option<seq<Role>>)
    ensures profile.None? <==> roles.None?
    ensures roles.Some? ==> forall i :: 0 <= i < |roles.value| ==> IsPractitionerRole(roles.value[i])
    ensures roles.Some? ==> forall x :: x in results && IsPractitionerRole(x) ==> x in roles.value
    ensures roles.Some? ==> roles.value == KeepPractitionerRoles(results)
  {
    if profile.None? then None else Some(KeepPractitionerRoles(results))
  }

  // ---------------------------------------------------------------------
  // The coding and the task filters of one role
  // ---------------------------------------------------------------------

  /** `role?.specialty?.[0].coding?.[0] ?? role?.code?.[0].coding?.[0]`
      evaluates without a TypeError; `code` is read only when the specialty
      side is undefined. */
  predicate CodingDefined(role: Role) {
    CodingPathDefined(role.specialty) &&
    (FirstCoding(role.specialty).None? ==> CodingPathDefined(role.code))
  }

  /** The coding whose code selects the performer. */
  function ChooseCoding(role: Role): (c: Option<Coding>)
    requires CodingDefined(role)
    ensures FirstCoding(role.specialty).Some? ==> c == FirstCoding(role.specialty)
    ensures FirstCoding(role.specialty).None? ==> c == FirstCoding(role.code)
  {
    var fromSpecialty := FirstCoding(role.specialty);
    if fromSpecialty.Some? then fromSpecialty else FirstCoding(role.code)
  }

  /** Unassigned tasks only. */
  const OwnerMissing := Filter("owner:missing", Equals, "true")

  /** The filters of a role's task link. */
  function RoleFilters(c: Option<Coding>): (fs: seq<Filter>)
    ensures 1 <= |fs| <= 2 && fs[0] == OwnerMissing
    ensures |fs| == 2 <==> c.Some? && Truthy(c.value.code)
    ensures |fs| == 2 ==> fs[1] == Filter("performer", Equals, c.value.code.value)
  {
    if c.Some? && Truthy(c.value.code)
    then [OwnerMissing, Filter("performer", Equals, c.value.code.value)]
    else [OwnerMissing]
  }

  /** A specialty coding wins even without a code: then there is no
      performer filter, whatever the `code` coding carries. */
  lemma SpecialtyCodingShadowsCode(role: Role)
    requires CodingDefined(role)
    requires FirstCoding(role.specialty).Some? && !Truthy(FirstCoding(role.specialty).value.code)
    ensures RoleFilters(ChooseCoding(role)) == [OwnerMissing]
  {
  }

  // ---------------------------------------------------------------------
  // The display of one role
  // ---------------------------------------------------------------------

  /** The `if` chain of getPractitionerRoleDisplay evaluates without a
      TypeError; the `code` path is read only when the specialty display
      is falsy. */
  predicate DisplayDefined(role: Role) {
    DisplayPathDefined(role.specialty) &&
    (!Truthy(FirstDisplay(role.specialty)) ==> DisplayPathDefined(role.code))
  }

  /** getPractitionerRoleDisplay: the specialty display if truthy, else
      the code display if truthy, else the library's display string of the
      whole resource. */
  function RoleDisplay(role: Role, lib: Library): (d: string)
    requires DisplayDefined(role)
    ensures Truthy(FirstDisplay(role.specialty)) ==> d == FirstDisplay(role.specialty).value
    ensures !Truthy(FirstDisplay(role.specialty)) && Truthy(FirstDisplay(role.code)) ==>
      d == FirstDisplay(role.code).value
    ensures !Truthy(FirstDisplay(role.specialty)) && !Truthy(FirstDisplay(role.code)) ==>
      d == lib.getDisplayString(role)
  {
    var fromSpecialty := FirstDisplay(role.specialty);
    if Truthy(fromSpecialty) then fromSpecialty.value
    else
      var fromCode := FirstDisplay(role.code);
      if Truthy(fromCode) then fromCode.value
      else lib.getDisplayString(role)
  }

  /** Candidate `i` is the first truthy one. */
  predicate FirstTruthyAt(candidates: seq<Option<string>>, i: int) {
    0 <= i < |candidates| && Truthy(candidates[i]) &&
    forall j :: 0 <= j < i ==> !Truthy(candidates[j])
  }

  /** The "first of" combinator: the first truthy candidate, else `fallback`. */
  function FirstOf(candidates: seq<Option<string>>, fallback: string): (r: string)
    ensures (forall i :: 0 <= i < |candidates| ==> !Truthy(candidates[i])) ==> r == fallback
    ensures forall i :: FirstTruthyAt(candidates, i) ==> r == candidates[i].value
  {
    if candidates == [] then fallback
    else if Truthy(candidates[0]) then candidates[0].value
    else FirstOf(candidates[1..], fallback)
  }

  /** The display candidates in the order the `if` chain reads them: the
      code display is read only when the specialty display is falsy. */
  function DisplayCandidates(role: Role): seq<Option<string>>
    requires DisplayDefined(role)
  {
    var fromSpecialty := FirstDisplay(role.specialty);
    if Truthy(fromSpecialty) then [fromSpecialty] else [fromSpecialty, FirstDisplay(role.code)]
  }

  /** The display is the first truthy candidate, falling back to
      getDisplayString. */
  lemma RoleDisplayIsFirstOf(role: Role, lib: Library)
    requires DisplayDefined(role)
    ensures RoleDisplay(role, lib) == FirstOf(DisplayCandidates(role), lib.getDisplayString(role))
  {
    var cs := DisplayCandidates(role);
    if Truthy(cs[0]) {
      assert FirstTruthyAt(cs, 0);
    } else if Truthy(cs[1]) {
      assert FirstTruthyAt(cs, 1);
    }
  }

  /** The display and the coding can come from different sources: a
      specialty coding with a code but no display supplies the performer,
      while the label comes from the `code` coding. */
  lemma DisplayAndCodingMayDiffer(lib: Library)
    ensures
      var role := Role("PractitionerRole", None,
                       Some([Concept(Some([Coding(Some("cardio"), None)]), None)]),
                       Some([Concept(Some([Coding(Some("nurse"), Some("Nursing"))]), None)]), "");
      CodingDefined(role) && DisplayDefined(role) &&
      RoleDisplay(role, lib) == "Nursing" &&
      RoleFilters(ChooseCoding(role)) == [OwnerMissing, Filter("performer", Equals, "cardio")]
  {
  }

  /** When the chosen specialty coding carries a truthy display, the label
      and the performer filter come from that same coding. */
  lemma SpecialtyCodingNamesItsRole(role: Role, lib: Library)
    requires Evaluable(role)
    requires FirstCoding(role.specialty).Some? && Truthy(FirstCoding(role.specialty).value.display)
    ensures ChooseCoding(role) == FirstCoding(role.specialty)
    ensures RoleDisplay(role, lib) == ChooseCoding(role).value.display.value
  {
    DisplayOfFirstCoding(role.specialty);
  }

  /** A truthy specialty display wins over any code display. */
  lemma SpecialtyDisplayWins(role: Role, d: string, lib: Library)
    requires DisplayPathDefined(role.specialty)
    requires FirstDisplay(role.specialty) == Some(d) && d != ""
    ensures DisplayDefined(role)
    ensures RoleDisplay(role, lib) == d
  {
  }

  /** Without a specialty, a truthy code display is used. */
  lemma CodeDisplayWithoutSpecialty(role: Role, d: string, lib: Library)
    requires role.specialty.None? && DisplayPathDefined(role.code)
    requires FirstDisplay(role.code) == Some(d) && d != ""
    ensures DisplayDefined(role)
    ensures RoleDisplay(role, lib) == d
  {
  }

  /** Two different resources without specialty or code need not share a
      display: a library that tells them apart gives them different ones. */
  lemma BareRolesNeedNotShareDisplay(r1: Role, r2: Role, lib: Library)
    requires r1 != r2
    requires r1.specialty.None? && r1.code.None? && r2.specialty.None? && r2.code.None?
    ensures var apart := lib.(getDisplayString := (r: Role) => if r == r1 then "A" else "B");
      DisplayDefined(r1) && DisplayDefined(r2) && RoleDisplay(r1, apart) != RoleDisplay(r2, apart)
  {
  }

  /** With neither a specialty nor a code, the display is whatever
      getDisplayString gives. */
  lemma DisplayFallsBackToLibrary(role: Role, lib: Library)
    requires role.specialty.None? && role.code.None?
    ensures DisplayDefined(role)
    ensures RoleDisplay(role, lib) == lib.getDisplayString(role)
  {
  }

  // ---------------------------------------------------------------------
  // The link of one role
  // ---------------------------------------------------------------------

  /** Building the link of `role` raises no TypeError. */
  predicate Evaluable(role: Role) {
    CodingDefined(role) && DisplayDefined(role)
  }

  predicate AllEvaluable(roles: seq<Role>) {
    forall i :: 0 <= i < |roles| ==> Evaluable(roles[i])
  }

  /** The `newLink` built for one role. */
  function RoleLink(role: Role, lib: Library): (l: Link)
    requires Evaluable(role)
    ensures l.icon == User
    ensures |l.text| >= 6 && l.text[|l.text| - 6..] == " Tasks"
    ensures l.text[..|l.text| - 6] == RoleDisplay(role, lib)
    ensures l.href == TaskHref(lib, RoleFilters(ChooseCoding(role)))
  {
    Link(User, RoleDisplay(role, lib) + " Tasks", TaskHref(lib, RoleFilters(ChooseCoding(role))))
  }

  /** One link per role, in role order. */
  function RoleLinks(roles: seq<Role>, lib: Library): (ls: seq<Link>)
    requires AllEvaluable(roles)
    ensures |ls| == |roles|
    ensures forall i :: 0 <= i < |roles| ==> ls[i] == RoleLink(roles[i], lib)
  {
    seq(|roles|, i requires 0 <= i < |roles| && Evaluable(roles[i]) => RoleLink(roles[i], lib))
  }


  /** The links of a prefix of the roles are the prefix of their links. */
  lemma RoleLinksPrefix(roles: seq<Role>, k: nat, lib: Library)
    requires AllEvaluable(roles) && k <= |roles|
    ensures AllEvaluable(roles[..k])
    ensures RoleLinks(roles[..k], lib) == RoleLinks(roles, lib)[..k]
  {
  }
}

=== FILE: search.dfy ===
/** Task search requests and the client-library helpers the sidebar calls. */
module Search {
  import opened Fhir

  /** The search operators used here: only Operator.EQUALS. */
  datatype Operator = Equals

  datatype Filter = Filter(code: string, operator: Operator, value: string)

  datatype SortRule = SortRule(code: string)

  datatype SearchRequest = SearchRequest(
    resourceType: string,
    fields: seq<string>,
    sortRules: seq<SortRule>,
    filters: seq<Filter>)

  /** The client-library helpers whose definitions are not part of this
      model: `formatSearchQuery`, `getReferenceString` and `getDisplayString`.
      Every statement below holds whatever these functions compute. */
  datatype Library = Library(
    formatSearchQuery: SearchRequest -> string,
    getReferenceString: Practitioner -> string,
    getDisplayString: Role -> string)

  /** The columns every task link asks for. */
  const TaskFields: seq<string> := ["code", "_lastUpdated", "owner", "for", "priority"]

  /** Every task link sorts by priority order, then due date. */
  const TaskSort: seq<SortRule> := [SortRule("-priority-order,due-date")]

  /** The Task search that every sidebar task link points at, given its filters. */
  function TaskSearch(filters: seq<Filter>): SearchRequest {
    SearchRequest("Task", TaskFields, TaskSort, filters)
  }

  /** The href of a task link: `/Task` followed by the formatted query. */
  function TaskHref(lib: Library, filters: seq<Filter>): string {
    "/Task" + lib.formatSearchQuery(TaskSearch(filters))
  }
}

=== FILE: sidebar.dfy ===
/** The two effects of App that build the "My Links" menu: the "My Tasks"
    pass and the per-role pass. A method returns None when the source
    returns before calling `setUserLinks`, and Some(list) for the list it
    stores. */
module Sidebar {
  import opened Values
  import opened Fhir
  import opened Search
  import opened NavLinks
  import opened Roles

  // ---------------------------------------------------------------------
  // Label collisions among appended links
  // ---------------------------------------------------------------------

  /** The label of `added[i]` is already taken, by a link of `base` or by
      an earlier link of `added`. */
  predicate CollidesAt(base: seq<Link>, added: seq<Link>, i: int) {
    0 <= i < |added| && HasLabel(base + added[..i], added[i].text)
  }

  predicate Collides(base: seq<Link>, added: seq<Link>) {
    exists i :: 0 <= i < |added| && CollidesAt(base, added, i)
  }

  lemma CollidesSnoc(base: seq<Link>, added: seq<Link>, l: Link)
    ensures Collides(base, added + [l]) <==> Collides(base, added) || HasLabel(base + added, l.text)
  {
    var ext := added + [l];
    assert ext[..|added|] == added;
    forall i | 0 <= i < |added|
      ensures CollidesAt(base, ext, i) <==> CollidesAt(base, added, i)
    {
      assert ext[..i] == added[..i];
    }
    if HasLabel(base + added, l.text) {
      assert CollidesAt(base, ext, |added|);
    }
  }

  /** The first appended link collides only with `base`; every later one
      sees the first as part of its base. */
  lemma CollidesFirst(base: seq<Link>, added: seq<Link>)
    requires added != []
    ensures Collides(base, added) <==> HasLabel(base, added[0].text) || Collides(base + [added[0]], added[1..])
  {
    var l, rest := added[0], added[1..];
    assert added[..0] == [] && base + added[..0] == base;
    forall i | 0 <= i < |rest|
      ensures CollidesAt(base, added, i + 1) <==> CollidesAt(base + [l], rest, i)
    {
      assert added[..i + 1] == [l] + rest[..i];
      assert base + added[..i + 1] == (base + [l]) + rest[..i];
    }
    if HasLabel(base, l.text) {
      assert CollidesAt(base, added, 0);
    }
    if Collides(base + [l], rest) {
      var i :| 0 <= i < |rest| && CollidesAt(base + [l], rest, i);
      assert CollidesAt(base, added, i + 1);
    }
    if Collides(base, added) {
      var i :| 0 <= i < |added| && CollidesAt(base, added, i);
      if i > 0 {
        assert CollidesAt(base + [l], rest, i - 1);
      }
    }
  }

  lemma CollidesPrefix(base: seq<Link>, a: seq<Link>, b: seq<Link>)
    requires a <= b && Collides(base, a)
    ensures Collides(base, b)
  {
    var i :| 0 <= i < |a| && CollidesAt(base, a, i);
    assert b[..i] == a[..i];
    assert CollidesAt(base, b, i);
  }

  /** Appending links to a list whose labels are keys keeps them keys
      exactly when no appended label collides. */
  lemma {:induction false} UniqueAppend(base: seq<Link>, added: seq<Link>)
    requires UniqueLabels(base)
    ensures UniqueLabels(base + added) <==> !Collides(base, added)
  {
    var all := base + added;
    if Collides(base, added) {
      var i :| 0 <= i < |added| && CollidesAt(base, added, i);
      var j :| 0 <= j < |base + added[..i]| && (base + added[..i])[j].text == added[i].text;
      assert all[j] == (base + added[..i])[j];
      assert all[|base| + i] == added[i];
    } else {
      forall i, j | 0 <= i < j < |all|
        ensures all[i].text != all[j].text
      {
        if j >= |base| {
          var k := j - |base|;
          assert !CollidesAt(base, added, k);
          assert all[i] == (base + added[..k])[i];
        }
      }
    }
  }

  // ---------------------------------------------------------------------
  // The "My Tasks" pass (getMyTasksLink)
  // ---------------------------------------------------------------------

  /** Tasks owned by `userReference` that are not completed. */
  function MyTasksFilters(userReference: string): seq<Filter> {
    [Filter("owner", Equals, userReference), Filter("status:not", Equals, "completed")]
  }

  function MyTasksLink(profile: Practitioner, lib: Library): Link {
    Link(User, "My Tasks", TaskHref(lib, MyTasksFilters(lib.getReferenceString(profile))))
  }

  /** getMyTasksLink run against the snapshot `links`. */
  method GetMyTasksLink(profile: Option<Practitioner>, links: seq<Link>, lib: Library)
    returns (update: Option<seq<Link>>)
    ensures profile.None? ==> update.None?
    ensures profile.Some? ==> (update.None? <==> HasLabel(links, "My Tasks"))
    ensures update.Some? ==>
      profile.Some? &&
      update.value == links + [Link(User, "My Tasks", "/Task" + lib.formatSearchQuery(
        SearchRequest("Task", ["code", "_lastUpdated", "owner", "for", "priority"],
                      [SortRule("-priority-order,due-date")],
                      [Filter("owner", Equals, lib.getReferenceString(profile.value)),
                       Filter("status:not", Equals, "completed")])))]
    ensures update.Some? ==> update.value == AddIfAbsent(links, MyTasksLink(profile.value, lib))
    ensures update.Some? && UniqueLabels(links) ==> UniqueLabels(update.value)
  {
    if profile.None? {
      return None;
    }
    var newLink := MyTasksLink(profile.value, lib);
    var found := ScanForLabel(links, newLink.text);
    if found {
      return None;
    }
    update := Some(links + [newLink]);
  }

  // ---------------------------------------------------------------------
  // The per-role pass (getLinks)
  // ---------------------------------------------------------------------

  /** The pass reaches role `k` after appending the links of `roles[..k]`,
      and meets a label already taken among them. */
  predicate PassAborts(links: seq<Link>, roles: seq<Role>, lib: Library) {
    exists k :: 0 < k <= |roles| && AllEvaluable(roles[..k]) && Collides(links, RoleLinks(roles[..k], lib))
  }

  /** Every role the loop reaches builds its link without a TypeError: the
      loop reaches role `k` when the earlier roles were built and none of
      their labels collided. Roles after an early return are never read. */
  predicate CrashFree(links: seq<Link>, roles: seq<Role>, lib: Library) {
    forall k :: 0 <= k < |roles| && AllEvaluable(roles[..k]) && !Collides(links, RoleLinks(roles[..k], lib)) ==>
      Evaluable(roles[k])
  }

  lemma NoAbortWithoutCollision(links: seq<Link>, roles: seq<Role>, lib: Library)
    requires AllEvaluable(roles) && !Collides(links, RoleLinks(roles, lib))
    ensures !PassAborts(links, roles, lib)
  {
    forall k | 0 < k <= |roles| && AllEvaluable(roles[..k])
      ensures !Collides(links, RoleLinks(roles[..k], lib))
    {
      RoleLinksPrefix(roles, k, lib);
      if Collides(links, RoleLinks(roles[..k], lib)) {
        CollidesPrefix(links, RoleLinks(roles[..k], lib), RoleLinks(roles, lib));
      }
    }
  }

  lemma AbortMeansCollision(links: seq<Link>, roles: seq<Role>, lib: Library)
    requires AllEvaluable(roles) && PassAborts(links, roles, lib)
    ensures Collides(links, RoleLinks(roles, lib))
  {
    var k :| 0 < k <= |roles| && AllEvaluable(roles[..k]) && Collides(links, RoleLinks(roles[..k], lib));
    RoleLinksPrefix(roles, k, lib);
    CollidesPrefix(links, RoleLinks(roles[..k], lib), RoleLinks(roles, lib));
  }

  /** Conversely, when every role can be built, a collision anywhere in
      their links aborts the pass. */
  lemma CollisionMeansAbort(links: seq<Link>, roles: seq<Role>, lib: Library)
    requires AllEvaluable(roles) && Collides(links, RoleLinks(roles, lib))
    ensures PassAborts(links, roles, lib)
  {
    assert roles[..|roles|] == roles;
  }

  /** One more role extends the links of the prefix by that role's link. */
  lemma RoleLinksStep(roles: seq<Role>, i: nat, lib: Library)
    requires i < |roles| && AllEvaluable(roles[..i]) && Evaluable(roles[i])
    ensures AllEvaluable(roles[..i + 1])
    ensures RoleLinks(roles[..i + 1], lib) == RoleLinks(roles[..i], lib) + [RoleLink(roles[i], lib)]
  {
    assert roles[..i + 1] == roles[..i] + [roles[i]];
  }

  /** A taken label at role `i`, reached without an earlier collision,
      aborts the pass. */
  lemma AbortsAt(links: seq<Link>, roles: seq<Role>, i: nat, lib: Library)
    requires i < |roles| && AllEvaluable(roles[..i]) && Evaluable(roles[i])
    requires HasLabel(links + RoleLinks(roles[..i], lib), RoleLink(roles[i], lib).text)
    ensures PassAborts(links, roles, lib)
  {
    RoleLinksStep(roles, i, lib);
    CollidesSnoc(links, RoleLinks(roles[..i], lib), RoleLink(roles[i], lib));
    assert 0 < i + 1 <= |roles| && AllEvaluable(roles[..i + 1]) && Collides(links, RoleLinks(roles[..i + 1], lib));
  }

  /** A role reached without an earlier collision, whose label is free,
      extends the collision-free prefix. */
  lemma ContinuesAt(links: seq<Link>, roles: seq<Role>, i: nat, lib: Library)
    requires i < |roles| && AllEvaluable(roles[..i]) && Evaluable(roles[i])
    requires !Collides(links, RoleLinks(roles[..i], lib))
    requires !HasLabel(links + RoleLinks(roles[..i], lib), RoleLink(roles[i], lib).text)
    ensures AllEvaluable(roles[..i + 1])
    ensures RoleLinks(roles[..i + 1], lib) == RoleLinks(roles[..i], lib) + [RoleLink(roles[i], lib)]
    ensures !Collides(links, RoleLinks(roles[..i + 1], lib))
  {
    RoleLinksStep(roles, i, lib);
    CollidesSnoc(links, RoleLinks(roles[..i], lib), RoleLink(roles[i], lib));
  }

  /** getLinks run against the snapshot `links` and the stored `roles`. */
  method GetLinks(links: seq<Link>, roles: Option<seq<Role>>, lib: Library)
    returns (update: Option<seq<Link>>)
    requires roles.Some? ==> CrashFree(links, roles.value, lib)
    ensures roles.None? ==> update == Some(links)
    ensures roles.Some? ==> (update.None? <==> PassAborts(links, roles.value, lib))
    ensures roles.Some? && update.Some? ==>
      AllEvaluable(roles.value) && !Collides(links, RoleLinks(roles.value, lib)) &&
      update.value == links + RoleLinks(roles.value, lib)
    ensures roles.Some? && AllEvaluable(roles.value) && !Collides(links, RoleLinks(roles.value, lib)) ==>
      update == Some(links + RoleLinks(roles.value, lib))
    ensures update.Some? && UniqueLabels(links) ==> UniqueLabels(update.value)
  {
    var updated := links;
    if roles.Some? {
      var rs := roles.value;
      for i := 0 to |rs|
        invariant AllEvaluable(rs[..i])
        invariant updated == links + RoleLinks(rs[..i], lib)
        invariant !Collides(links, RoleLinks(rs[..i], lib))
      {
        assert Evaluable(rs[i]);
        var newLink := RoleLink(rs[i], lib);
        var found := ScanForLabel(updated, newLink.text);
        if found {
          AbortsAt(links, rs, i, lib);
          if AllEvaluable(rs) {
            AbortMeansCollision(links, rs, lib);
          }
          return None;
        }
        ContinuesAt(links, rs, i, lib);
        updated := updated + [newLink];
      }
      assert rs[..|rs|] == rs;
      NoAbortWithoutCollision(links, rs, lib);
      if UniqueLabels(links) {
        UniqueAppend(links, RoleLinks(rs, lib));
      }
    }
    update := Some(updated);
  }

  // ---------------------------------------------------------------------
  // Both passes after sign-in
  // ---------------------------------------------------------------------

  /** Sign-in with the fetched `results`, each pass storing its list before
      the next one reads it: the "My Tasks" pass, then the role pass. */
  method SignIn(profile: Option<Practitioner>, results: seq<Role>, lib: Library) returns (links: seq<Link>)
    requires profile.Some? ==>
      CrashFree(InitialLinks + [MyTasksLink(profile.value, lib)], KeepPractitionerRoles(results), lib)
    ensures UniqueLabels(links)
    ensures profile.None? ==> links == InitialLinks
    ensures profile.Some? ==>
      var base := InitialLinks + [MyTasksLink(profile.value, lib)];
      var roles := KeepPractitionerRoles(results);
      (PassAborts(base, roles, lib) ==> links == base) &&
      (!PassAborts(base, roles, lib) ==> AllEvaluable(roles) && links == base + RoleLinks(roles, lib))
    ensures profile.Some? && KeepPractitionerRoles(results) == [] ==>
      |links| == 2 && links[0].text == "All Tasks" && links[1].text == "My Tasks"
  {
    InitialLinksUnique();
    var roles := FetchRoles(profile, results);
    links := InitialLinks;
    var mine := GetMyTasksLink(profile, links, lib);
    if mine.Some? {
      links := mine.value;
    }
    var fromRoles := GetLinks(links, roles, lib);
    if fromRoles.Some? {
      links := fromRoles.value;
    }
  }

  // ---------------------------------------------------------------------
  // The role pass with a skip instead of an early return
  // ---------------------------------------------------------------------

  /** Dedup-append each of `added` in turn: a taken label skips only that
      link. */
  function AddAll(links: seq<Link>, added: seq<Link>): (r: seq<Link>)
    ensures |links| <= |r| <= |links| + |added|
    decreases |added|
  {
    if added == [] then links else AddAll(AddIfAbsent(links, added[0]), added[1..])
  }

  /** Dedup-appending keeps the list as a prefix, leaves every label of
      `added` present, and keeps labels unique. */
  lemma {:induction false} AddAllKeeps(links: seq<Link>, added: seq<Link>)
    ensures links <= AddAll(links, added) && |AddAll(links, added)| <= |links| + |added|
    ensures forall i :: 0 <= i < |added| ==> HasLabel(AddAll(links, added), added[i].text)
    ensures UniqueLabels(links) ==> UniqueLabels(AddAll(links, added))
    decreases |added|
  {
    if added != [] {
      var next := AddIfAbsent(links, added[0]);
      AddAllKeeps(next, added[1..]);
      var r := AddAll(links, added);
      assert r == AddAll(next, added[1..]);
      forall i | 0 <= i < |added|
        ensures HasLabel(r, added[i].text)
      {
        if i == 0 {
          var j :| 0 <= j < |next| && next[j].text == added[0].text;
          assert r[j] == next[j];
        } else {
          assert added[i] == added[1..][i - 1];
        }
      }
    }
  }

  lemma AddAllFreeFirst(links: seq<Link>, added: seq<Link>)
    requires added != [] && !HasLabel(links, added[0].text)
    ensures AddAll(links, added) == AddAll(links + [added[0]], added[1..])
  {
  }

  lemma AddAllPair(links: seq<Link>, l1: Link, l2: Link)
    ensures AddAll(links, [l1, l2]) == AddIfAbsent(AddIfAbsent(links, l1), l2)
  {
    var added := [l1, l2];
    var once := AddIfAbsent(links, l1);
    assert added[0] == l1 && added[1..] == [l2];
    assert AddAll(links, added) == AddAll(once, [l2]);
    assert [l2][0] == l2 && [l2][1..] == [];
    assert AddAll(once, [l2]) == AddAll(AddIfAbsent(once, l2), []);
  }

  /** Without collisions, dedup-appending each link appends them all. */
  lemma {:induction false} AddAllWithoutCollision(links: seq<Link>, added: seq<Link>)
    requires !Collides(links, added)
    ensures AddAll(links, added) == links + added
    decreases |added|
  {
    if added != [] {
      CollidesFirst(links, added);
      AddAllFreeFirst(links, added);
      AddAllWithoutCollision(links + [added[0]], added[1..]);
      assert (links + [added[0]]) + added[1..] == links + added;
    }
  }

  /** Once every label is present, dedup-appending changes nothing. */
  lemma {:induction false} AddAllPresent(links: seq<Link>, added: seq<Link>)
    requires forall i :: 0 <= i < |added| ==> HasLabel(links, added[i].text)
    ensures AddAll(links, added) == links
    decreases |added|
  {
    if added != [] {
      assert forall i :: 0 <= i < |added[1..]| ==> added[1..][i] == added[i + 1];
      AddAllPresent(links, added[1..]);
    }
  }

  /** The role pass with each role's link added by AddIfAbsent: a taken
      label skips only that role. */
  function AddRoleLinks(links: seq<Link>, roles: seq<Role>, lib: Library): (r: seq<Link>)
    requires AllEvaluable(roles)
    ensures links <= r && |r| <= |links| + |roles|
    ensures forall i :: 0 <= i < |roles| ==> HasLabel(r, RoleLink(roles[i], lib).text)
    ensures UniqueLabels(links) ==> UniqueLabels(r)
  {
    var ls := RoleLinks(roles, lib);
    AddAllKeeps(links, ls);
    AddAll(links, ls)
  }

  /** Without collisions, skipping and returning early agree: every role
      gets its link, in role order. */
  lemma AddRoleLinksWithoutCollision(links: seq<Link>, roles: seq<Role>, lib: Library)
    requires AllEvaluable(roles) && !Collides(links, RoleLinks(roles, lib))
    ensures AddRoleLinks(links, roles, lib) == links + RoleLinks(roles, lib)
  {
    AddAllWithoutCollision(links, RoleLinks(roles, lib));
  }

  /** Re-running the skipping pass on its own output changes nothing. */
  lemma AddRoleLinksIdempotent(links: seq<Link>, roles: seq<Role>, lib: Library)
    requires AllEvaluable(roles)
    ensures AddRoleLinks(AddRoleLinks(links, roles, lib), roles, lib) == AddRoleLinks(links, roles, lib)
  {
    var ls := RoleLinks(roles, lib);
    AddAllKeeps(links, ls);
    AddAllPresent(AddAll(links, ls), ls);
  }

  /** The links of two roles. */
  lemma RoleLinksPair(r1: Role, r2: Role, lib: Library)
    requires Evaluable(r1) && Evaluable(r2)
    ensures AllEvaluable([r1, r2]) && AllEvaluable([r1, r2][..1])
    ensures RoleLinks([r1, r2], lib) == [RoleLink(r1, lib), RoleLink(r2, lib)]
    ensures RoleLinks([r1, r2][..1], lib) == [RoleLink(r1, lib)]
  {
    assert [r1, r2][..1] == [r1];
  }

  /** As written: two roles with the same display abort the pass, so
      neither gets a link. */
  lemma DuplicateDisplayAborts(links: seq<Link>, r1: Role, r2: Role, lib: Library)
    requires Evaluable(r1) && Evaluable(r2)
    requires RoleDisplay(r1, lib) == RoleDisplay(r2, lib)
    requires !HasLabel(links, RoleLink(r1, lib).text)
    ensures PassAborts(links, [r1, r2], lib)
  {
    var rs := [r1, r2];
    var l1, l2 := RoleLink(r1, lib), RoleLink(r2, lib);
    RoleLinksPair(r1, r2, lib);
    assert rs[..2] == rs;
    var ls := [l1, l2];
    assert ls[..1] == [l1];
    assert (links + [l1])[|links|] == l1;
    assert CollidesAt(links, ls, 1);
    assert 0 < 2 <= |rs| && AllEvaluable(rs[..2]) && Collides(links, RoleLinks(rs[..2], lib));
  }

  /** Two roles with different displays and new labels both get their
      link: the source's pass does not abort and stores both. */
  lemma DistinctDisplaysBothLinked(links: seq<Link>, r1: Role, r2: Role, lib: Library)
    requires Evaluable(r1) && Evaluable(r2)
    requires RoleDisplay(r1, lib) != RoleDisplay(r2, lib)
    requires !HasLabel(links, RoleLink(r1, lib).text) && !HasLabel(links, RoleLink(r2, lib).text)
    ensures AllEvaluable([r1, r2]) && !Collides(links, RoleLinks([r1, r2], lib))
    ensures !PassAborts(links, [r1, r2], lib)
  {
    var l1, l2 := RoleLink(r1, lib), RoleLink(r2, lib);
    RoleLinksPair(r1, r2, lib);
    assert l1.text != l2.text;
    var ls := [l1, l2];
    CollidesFirst(links, ls);
    assert ls[1..] == [l2];
    CollidesFirst(links + [l1], [l2]);
    assert !HasLabel(links + [l1], l2.text);
    NoAbortWithoutCollision(links, [r1, r2], lib);
  }

  /** Skipping instead keeps the link of the first of two roles with the
      same display. */
  lemma DuplicateDisplayKeepsFirst(links: seq<Link>, r1: Role, r2: Role, lib: Library)
    requires Evaluable(r1) && Evaluable(r2)
    requires RoleDisplay(r1, lib) == RoleDisplay(r2, lib)
    requires !HasLabel(links, RoleLink(r1, lib).text)
    ensures AddRoleLinks(links, [r1, r2], lib) == links + [RoleLink(r1, lib)]
  {
    var l1, l2 := RoleLink(r1, lib), RoleLink(r2, lib);
    RoleLinksPair(r1, r2, lib);
    var next := links + [l1];
    assert next[|links|] == l1;
    assert HasLabel(next, l2.text);
    AddAllPair(links, l1, l2);
  }

  /** As written: when the first role's link is already listed, as on every
      re-run of the effect, the pass returns at once and a new second
      role never gets its link; skipping adds it. */
  lemma KnownFirstRoleHidesNewRole(links: seq<Link>, r1: Role, r2: Role, lib: Library)
    requires Evaluable(r1) && Evaluable(r2)
    requires HasLabel(links, RoleLink(r1, lib).text)
    requires !HasLabel(links, RoleLink(r2, lib).text)
    ensures PassAborts(links, [r1, r2], lib)
    ensures AddRoleLinks(links, [r1, r2], lib) == links + [RoleLink(r2, lib)]
  {
    var rs := [r1, r2];
    var l1, l2 := RoleLink(r1, lib), RoleLink(r2, lib);
    RoleLinksPair(r1, r2, lib);
    var ls := [l1];
    assert ls[..0] == [] && links + ls[..0] == links;
    assert CollidesAt(links, ls, 0);
    assert 0 < 1 <= |rs| && AllEvaluable(rs[..1]) && Collides(links, RoleLinks(rs[..1], lib));
    AddAllPair(links, l1, l2);
  }
}

=== FILE: upload.dfy ===
/** The upload stub page: the display form of the `:dataType` route
    parameter and the button text built from it. Case mapping is ASCII. */
module Upload {
  import opened Values

  predicate IsLowerAscii(c: char) {
    'a' <= c <= 'z'
  }

  /** `toUpperCase` on one character, for the ASCII letters. */
  function UpperAscii(c: char): (u: char)
    ensures !IsLowerAscii(u)
    ensures !IsLowerAscii(c) ==> u == c
    ensures IsLowerAscii(c) ==> u as int == c as int - 32
  {
    if IsLowerAscii(c) then (c as int - 32) as char else c
  }

  /** `dataType ? dataType.charAt(0).toUpperCase() + dataType.slice(1) : ''`. */
  function DataTypeDisplay(dataType: Option<string>): (d: string)
    ensures !Truthy(dataType) ==> d == ""
    ensures Truthy(dataType) ==>
      |d| == |dataType.value| && d[0] == UpperAscii(dataType.value[0]) && d[1..] == dataType.value[1..]
  {
    if Truthy(dataType) then [UpperAscii(dataType.value[0])] + dataType.value[1..] else ""
  }

  /** Capitalising the display again changes nothing. */
  lemma DataTypeDisplayIdempotent(dataType: Option<string>)
    ensures DataTypeDisplay(Some(DataTypeDisplay(dataType))) == DataTypeDisplay(dataType)
  {
  }

  /** The display differs from the parameter at most in its first
      character, and there only by case. */
  lemma DataTypeDisplayOnlyRecases(dataType: string)
    ensures |DataTypeDisplay(Some(dataType))| == |dataType|
    ensures forall i :: 0 < i < |dataType| ==> DataTypeDisplay(Some(dataType))[i] == dataType[i]
    ensures dataType != "" && !IsLowerAscii(dataType[0]) ==> DataTypeDisplay(Some(dataType)) == dataType
  {
  }

  /** The text of the upload button. */
  function UploadButtonText(dataType: Option<string>): (t: string)
    ensures |t| == 12 + |DataTypeDisplay(dataType)|
    ensures t[..7] == "Upload " && t[|t| - 5..] == " Data"
    ensures t[7..|t| - 5] == DataTypeDisplay(dataType)
  {
    "Upload " + DataTypeDisplay(dataType) + " Data"
  }

  /** Reads the display back out of a button text. */
  function ButtonDisplay(text: string): (d: Option<string>)
    ensures d.Some? ==> |text| >= 12 && text == "Upload " + d.value + " Data"
  {
    if |text| >= 12 && text[..7] == "Upload " && text[|text| - 5..] == " Data"
    then
      var d := text[7..|text| - 5];
      assert text == text[..7] + d + text[|text| - 5..];
      Some(d)
    else None
  }

  /** The button text determines the display it was built from. */
  lemma ButtonTextRoundTrip(dataType: Option<string>)
    ensures ButtonDisplay(UploadButtonText(dataType)) == Some(DataTypeDisplay(dataType))
  {
  }

  /** A single URL path segment that reaches the page unchanged: made of
      the unreserved URL characters only (letters, digits, `-`, `.`, `_`,
      `~`), and not one of the dot segments "." and "..", which the URL
      parser resolves away. */
  predicate PlainSegment(w: string) {
    w != "" && w != "." && w != ".." &&
    forall i :: 0 <= i < |w| ==> w[i] in "ABCDEFGHIJKLMNOPQRSTUVWXYZabcdefghijklmnopqrstuvwxyz0123456789-._~"
  }

  /** The `:dataType` that the route `/upload/:dataType` takes from `href`,
      for an href whose parameter is one plain segment; None otherwise. */
  function RouteDataType(href: string): (p: Option<string>)
    ensures p.Some? ==> href == "/upload/" + p.value && PlainSegment(p.value)
    ensures |href| > 8 && href[..8] == "/upload/" && PlainSegment(href[8..]) ==> p == Some(href[8..])
  {
    if |href| > 8 && href[..8] == "/upload/" && PlainSegment(href[8..]) then
      var p := href[8..];
      assert href == href[..8] + p;
      Some(p)
    else None
  }

  /** The page at `/upload/<w>`, for a plain segment `w`, shows "Upload ",
      `w` with its first character upper-cased, and " Data". */
  lemma RoutedButtonText(w: string)
    requires PlainSegment(w)
    ensures RouteDataType("/upload/" + w) == Some(w)
    ensures UploadButtonText(Some(w)) == "Upload " + [UpperAscii(w[0])] + w[1..] + " Data"
  {
    assert ("/upload/" + w)[..8] == "/upload/";
    assert ("/upload/" + w)[8..] == w;
  }
}

=== FILE: values.dfy ===
/** JavaScript values the sidebar code reads: possibly-undefined fields and their truthiness. */
module Values {

  /** A field that may be undefined (None) or hold a value (Some). */
  datatype Option<+T> = None | Some(value: T)

  /** JavaScript truthiness of a possibly-undefined string: present and not empty. */
  predicate Truthy(s: Option<string>) {
    s.Some? && s.value != ""
  }
}
